=== FILE: README.md ===
# Supermarket point-of-sale front-end: a Dafny model of its logic

The system is a retail point-of-sale web front-end. It has an inventory
dashboard, a product form, a sales register and a login screen, all backed by
a mock product API and an HTTP client layer. Under the markup sit a few pure
computations and decision rules. This project states them as Dafny functions
over immutable records and sequences and proves their properties. Money,
quantities and the other numeric record fields are `real`; the HTTP status is
an `int` and counts are `nat`.

| file | module | models |
|---|---|---|
| `wrappers.dfy` | `Wrappers` | `Option` for `null`/`undefined`, string truthiness and `||`, the `ApiResponse` envelope |
| `seqs.dfy` | `Seqs` | `Array.filter`, `reduce`-sums and `String.includes` as functions with their laws |
| `products.dfy` | `Products` | the `Product` record, the product card's low-stock flag, profit and margin, and the sample product list |
| `cart.dfy` | `Cart` | the sales cart: `updateQuantity`, `removeItem`, subtotal, 15% VAT and total, and the line-total invariant |
| `inventory.dfy` | `Inventory` | the dashboard's search/low-stock filter, low-stock counter, delete-by-id, total value and average margin |
| `product_form.dfy` | `ProductForm` | the product schema's field rules, blank defaults and submission |
| `mock_api.dfy` | `MockApi` | `productsApi.getAll/getById/add/update/delete` over the sample list, including partial-record update |
| `decimal.dfy` | `Decimal` | rendering an integral status code as decimal text, with its parse inverse |
| `api_service.dfy` | `ApiService` | the token store, the bearer-header interceptor, `handleApiError`, and the product service's failure handling |
| `login.dfy` | `Login` | the credential schema and the login submit handler as a state transition |

Every operation is a pure function. Component state becomes an argument and
a result: a handler that calls a React state setter returns the next value
instead. The browser's `localStorage` entry `jwt_token` is an
`Option<string>`. `toLowerCase` is a parameter `lower: string -> string` of
the filter. The login call's answer, the HTTP transport's outcome and the
clock-generated id are inputs.

The card, the dashboard filter and the low-stock counter share one
low-stock predicate, `Products.IsLowStock`. It is `quantity <= minStock`, so
the boundary counts as low.

The dashboard's average margin has no guard for an empty product list, and
neither has the sales page's average. The model keeps the unguarded average
as written, proves where it breaks, and adds a guarded average that gives 0
on an empty list (see Findings).

## Model

| member | source | states |
|---|---|---|
| `Cart.UpdateQuantity` | src/components/sales/TransactionPanel.tsx:32-42 | a quantity below 1 leaves the cart unchanged; otherwise the length and all lines with other ids are kept, and each line with the id keeps id, name and price, takes the new quantity and is consistent (`total = price * q`) |
| `Cart.SeedCart` | src/components/sales/TransactionPanel.tsx:18-21 | definition: the two lines the register starts with |
| `Cart.RemoveItem` | src/components/sales/TransactionPanel.tsx:45-47 | no line with the id remains, every other line remains as many times as it occurred (a multiset equation), and the result is a subsequence of the cart (order kept) |
| `Cart.ComputeTotals` | src/components/sales/TransactionPanel.tsx:26-29 | the subtotal is the sum of line totals, tax is 15% of it, the total is 1.15 times the subtotal, and an empty cart gives 0, 0, 0 |
| `Cart.Subtotal` | src/components/sales/TransactionPanel.tsx:26 | definition: the sum of the stored line totals |
| `Cart.TotalsBounds` | src/components/sales/TransactionPanel.tsx:26-29 | with non-negative line totals, 0 <= subtotal <= total and tax >= 0 |
| `Cart.SeedCartTotals` | src/components/sales/TransactionPanel.tsx:18-29 | the seed cart is consistent and its totals are 47.73, 7.1595 and 54.8895 |
| `Cart.UpdateKeepsConsistent` | src/components/sales/TransactionPanel.tsx:36-40 | a quantity change keeps every line's `total == price * quantity` |
| `Cart.RemoveKeepsConsistent` | src/components/sales/TransactionPanel.tsx:46 | a removal keeps every line's `total == price * quantity` |
| `Cart.ConsistentSubtotal` | src/components/sales/TransactionPanel.tsx:26 | in a consistent cart the subtotal equals the sum of price times quantity |
| `Cart.UpdateUnknownId` | src/components/sales/TransactionPanel.tsx:36-40 | a quantity change for an id not in the cart is a no-op |
| `Cart.UpdateLastWins` | src/components/sales/TransactionPanel.tsx:32-42 | of two quantity changes for one id, the second (accepted) one decides the cart |
| `Cart.UpdateIdempotent` | src/components/sales/TransactionPanel.tsx:32-42 | setting the same quantity twice equals setting it once |
| `Cart.DecrementAtOneRejected` | src/components/sales/TransactionPanel.tsx:33 | the decrement of a line at quantity 1 asks for 0 and is rejected |
| `Cart.UpdateSubtotal` | src/components/sales/TransactionPanel.tsx:26-40 | in a consistent cart a quantity change moves the subtotal by price times the quantity change over the matching lines |
| `Cart.RemoveAbsent` | src/components/sales/TransactionPanel.tsx:46 | removing an absent id changes nothing |
| `Cart.RemoveIdempotent` | src/components/sales/TransactionPanel.tsx:45-47 | removing an id twice equals removing it once |
| `Cart.RemoveCommutes` | src/components/sales/TransactionPanel.tsx:45-47 | removals of two ids commute |
| `Cart.RemoveSubtotal` | src/components/sales/TransactionPanel.tsx:26-46 | a removal lowers the subtotal by exactly the totals of the removed lines |
| `Cart.RemoveOnlyLine` | src/components/sales/TransactionPanel.tsx:26-46 | removing the only line leaves an empty cart whose totals are all 0 |
| `Products.ProfitMargin` | src/components/inventory/ProductCard.tsx:27-28 | the margin times the price is 100 times the profit; it needs a non-zero price |
| `Products.IsLowStock` | src/components/inventory/ProductCard.tsx:25 | definition: `quantity <= minStock` |
| `Products.Profit` | src/components/inventory/ProductCard.tsx:27 | definition: price minus cost |
| `Products.SampleProducts` | src/lib/api.ts:8-69 | definition: the six sample products |
| `Products.DraftRoundTrip` | src/lib/api.ts:140-143 | a product is its fields without the id plus its id: `add`'s spread loses nothing |
| `Products.MarginSign` | src/components/inventory/ProductCard.tsx:27-28 | for a positive price the margin is 0 iff price equals cost, negative iff cost exceeds price, positive iff price exceeds cost |
| `Products.MarginBelowHundred` | src/components/inventory/ProductCard.tsx:27-28 | with positive price and cost the margin is below 100% |
| `Products.SampleProductsWellFormed` | src/lib/api.ts:8-69 | every sample product has price > cost > 0, and the sample ids are distinct |
| `Inventory.FilteredProducts` | src/components/inventory/InventoryDashboard.tsx:94-104 | the view is a subsequence of the products; a product is in it, as many times as in the list, iff its lowered name or category contains the lowered term or its barcode contains the raw term, and, with the toggle on, it is low on stock |
| `Inventory.MatchesSearch` | src/components/inventory/InventoryDashboard.tsx:95-97 | definition: lowered name, raw barcode or lowered category includes the term |
| `Inventory.SearchByBarcodeShowsProduct` | src/components/inventory/InventoryDashboard.tsx:94-96 | searching for a product's exact barcode shows that product |
| `Inventory.EmptySearchShowsAll` | src/components/inventory/InventoryDashboard.tsx:94-104 | an empty term with the toggle off shows every product, in order |
| `Inventory.EmptyInventoryShowsNothing` | src/components/inventory/InventoryDashboard.tsx:94 | an empty product list gives an empty view for any search |
| `Inventory.LowStockToggleNarrows` | src/components/inventory/InventoryDashboard.tsx:99-101 | the toggle-on view is a subsequence of the toggle-off view and holds only low-stock products |
| `Inventory.LowStockToggleIsSecondFilter` | src/components/inventory/InventoryDashboard.tsx:99-103 | the toggle-on view is the toggle-off view filtered by the low-stock predicate |
| `Inventory.LowStockCount` | src/components/inventory/InventoryDashboard.tsx:107 | the low-stock count is at most the number of products |
| `Inventory.LowStockCountIsCount` | src/components/inventory/InventoryDashboard.tsx:107 | the count equals the one-by-one count of products with `quantity <= minStock` |
| `Inventory.LowStockCountMatchesToggle` | src/components/inventory/InventoryDashboard.tsx:99-107 | the count equals the size of the view for an empty term with the toggle on |
| `Inventory.NoLowStockCountsZero` | src/components/inventory/InventoryDashboard.tsx:107 | when every quantity exceeds its threshold the count is 0 |
| `Inventory.SampleLowStockCount` | src/components/inventory/InventoryDashboard.tsx:11-107 | two sample products are low on stock |
| `Inventory.DeleteProduct` | src/components/inventory/InventoryDashboard.tsx:87-91 | no product with the id remains, all others remain as many times as they occurred, in their original order, and deleting an id that is listed shortens the list |
| `Inventory.DeleteIdempotent` | src/components/inventory/InventoryDashboard.tsx:90 | deleting twice equals deleting once; deleting an absent id changes nothing |
| `Inventory.DeleteNeverRaisesLowStock` | src/components/inventory/InventoryDashboard.tsx:90-107 | a deletion never raises the low-stock count |
| `Inventory.TotalValueNonNegative` | src/components/inventory/InventoryDashboard.tsx:142 | with non-negative costs and quantities the total stock value is non-negative |
| `Inventory.TotalValue` | src/components/inventory/InventoryDashboard.tsx:142 | definition: the sum of cost times quantity |
| `Inventory.DeleteLowersTotalValue` | src/components/inventory/InventoryDashboard.tsx:90-142 | a deletion lowers the total value by exactly the deleted products' cost times quantity |
| `Inventory.SampleTotalValue` | src/components/inventory/InventoryDashboard.tsx:11-142 | the sample stock is worth 1477.85 |
| `Inventory.AverageMarginAsWritten` | src/components/inventory/InventoryDashboard.tsx:143 | the unguarded average is NaN exactly for an empty list; otherwise it times the count is the sum of the per-product margins |
| `Inventory.AverageMargin` | src/components/inventory/InventoryDashboard.tsx:143 | the guarded average is 0 for an empty list and agrees with the unguarded one otherwise |
| `Inventory.DeleteLastProductShowsNaN` | src/components/inventory/InventoryDashboard.tsx:87-143 | deleting the only product empties the list; the unguarded card then shows NaN and the guarded one 0 |
| `Inventory.MarginSumBounds` | src/components/inventory/InventoryDashboard.tsx:143 | when every product sells above a positive cost, the margin sum lies strictly between 0 and 100 times the count |
| `Inventory.AverageMarginBounds` | src/components/inventory/InventoryDashboard.tsx:143 | for such products the guarded average lies strictly between 0 and 100 |
| `ProductForm.Submit` | src/components/inventory/ProductForm.tsx:14-58 | values are forwarded iff every field rule holds, and then unchanged |
| `ProductForm.ValidProductForm` | src/components/inventory/ProductForm.tsx:14-22 | definition: the seven field rules of the schema |
| `ProductForm.DefaultValues` | src/components/inventory/ProductForm.tsx:44-52 | editing starts from the product's own fields, adding from the blank form |
| `ProductForm.BlankFormRejected` | src/components/inventory/ProductForm.tsx:14-52 | the blank form is rejected: name, barcode, price, cost and category fail; quantity 0 and minStock 0 pass |
| `ProductForm.SchemaBoundaries` | src/components/inventory/ProductForm.tsx:15-21 | a 1-character name fails and a 2-character one passes; a price of 0 fails; a fractional quantity fails |
| `ProductForm.ValidFormMarginDefined` | src/components/inventory/ProductForm.tsx:17-18 | a valid form gives a product with a non-zero price whose card margin is below 100% |
| `ProductForm.SampleProductsPassSchema` | src/components/inventory/ProductForm.tsx:14-58 | every sample product opened for editing and saved unchanged passes the schema |
| `MockApi.FindIndex` | src/lib/api.ts:116 | the index found holds the id and no earlier product does; no index iff no product has the id |
| `MockApi.Find` | src/lib/api.ts:116 | a found product has the id and is the first product in the list that has it; nothing is found iff no product has the id |
| `MockApi.FindDistinct` | src/lib/api.ts:116 | in a list with distinct ids, looking up a product's id finds that product |
| `MockApi.ApplyPatch` | src/lib/api.ts:177-180 | every field present in the partial (the id included) overrides the product's field; every field absent from it keeps its old value |
| `MockApi.EmptyPatchIdentity` | src/lib/api.ts:177-180 | the empty partial leaves the product unchanged |
| `MockApi.PatchCompose` | src/lib/api.ts:177-180 | applying two partials in turn equals applying their merge |
| `MockApi.PatchIdempotent` | src/lib/api.ts:177-180 | applying a partial twice equals applying it once |
| `MockApi.FullPatchReplaces` | src/lib/api.ts:177-180 | a partial with every field of `q` turns a product into `q`, unless that would need clearing an image |
| `MockApi.GetAll` | src/lib/api.ts:90-97 | succeeds with the six sample products unchanged |
| `MockApi.GetById` | src/lib/api.ts:113-121 | always succeeds; the data is a sample product with the id, or `null` iff none has it |
| `MockApi.Add` | src/lib/api.ts:137-148 | succeeds with the given fields unchanged and the new id |
| `MockApi.Update` | src/lib/api.ts:168-200 | succeeds iff a sample product has the id, returning it with the partial laid over it; otherwise fails with the not-found message and an empty placeholder |
| `MockApi.Delete` | src/lib/api.ts:205-211 | always succeeds with `true` |
| `MockApi.UpdateEmptyPatch` | src/lib/api.ts:171-185 | a successful update with the empty partial returns what `getById` returns |
| `MockApi.GetByIdSample` | src/lib/api.ts:113-121 | looking up each sample id returns that sample product |
| `MockApi.UnknownIdExample` | src/lib/api.ts:171-175 | id "7" is looked up as `null`, and updating it fails with the not-found message |
| `Decimal.IntToStringInjective` | src/lib/apiService.ts:55 | different status codes render as different text |
| `Decimal.IntToString` | src/lib/apiService.ts:55 | the text is non-empty, starts with a minus sign exactly for a negative number, is otherwise all digits, and has no leading zero (the canonical decimal form) |
| `Decimal.IntRoundTrip` | src/lib/apiService.ts:55 | parsing the rendered text gives the number back |
| `ApiService.SetToken` | src/lib/apiService.ts:144-146 | after `setToken(t)`, `getToken` returns `t` |
| `ApiService.GetToken` | src/lib/apiService.ts:149-151 | definition: the stored entry |
| `ApiService.IsAuthenticated` | src/lib/apiService.ts:159-161 | definition: the stored entry is truthy |
| `ApiService.ClearToken` | src/lib/apiService.ts:154-156 | after `clearToken`, `getToken` is absent and the user is not authenticated |
| `ApiService.SetTokenAuthenticates` | src/lib/apiService.ts:159-161 | a stored token authenticates iff it is non-empty |
| `ApiService.TokenStoreLaws` | src/lib/apiService.ts:144-156 | the last token written wins; clearing is idempotent; a cleared store has no token |
| `ApiService.AttachToken` | src/lib/apiService.ts:16-25 | with a non-empty stored token the request gets `Authorization: Bearer <token>`; otherwise it is untouched; no other header changes |
| `ApiService.BearerRoundTrip` | src/lib/apiService.ts:21-23 | the header written carries exactly the stored token after the `Bearer ` prefix |
| `ApiService.AttachTokenIdempotent` | src/lib/apiService.ts:16-25 | running the interceptor twice equals running it once |
| `ApiService.InterceptorFollowsStore` | src/lib/apiService.ts:16-25 | after `setToken(t)` with non-empty `t` requests carry it; after `clearToken` they go out untouched |
| `ApiService.HandleApiError` | src/lib/apiService.ts:38-69 | every path throws; 401 gives the unauthorized message and clears the token; 403 the forbidden message; other statuses the server's message or `خطأ: <status>`; no response, setup failure, plain `Error` and other values each their own message; only 401 touches the store |
| `ApiService.OnlyUnauthorizedClearsToken` | src/lib/apiService.ts:48-56 | for a logged-in user, the handler logs out iff the failure is a 401 |
| `ApiService.StatusMessagesDistinct` | src/lib/apiService.ts:54-55 | two statuses other than 401 and 403, without a server message, give different thrown messages |
| `ApiService.EmptyServerMessageFallsBack` | src/lib/apiService.ts:55 | an empty server message on a 500 falls back to `خطأ: 500` |
| `ApiService.UnauthorizedStopsBearer` | src/lib/apiService.ts:18-51 | after a 401 the next request goes out without an Authorization header |
| `ApiService.Fetch` | src/lib/apiService.ts:74-102 | reads never reject and never touch the token; on failure they resolve to a failure response with the fallback data and the error's message |
| `ApiService.ErrorMessage` | src/lib/apiService.ts:84 | definition: an `Error`'s own message, otherwise the fallback text |
| `ApiService.Mutate` | src/lib/apiService.ts:105-138 | writes pass a delivered body through; on failure they reject with what the handler throws and apply its token rule |
| `ApiService.UnauthorizedReadKeepsToken` | src/lib/apiService.ts:74-138 | a 401 on a read keeps the token, while a 401 on a write clears it and rejects with the unauthorized message |
| `Login.BeginAttempt` | src/components/auth/LoginForm.tsx:38-39 | an attempt starts loading with no error, touching nothing else |
| `Login.FinishAttempt` | src/components/auth/LoginForm.tsx:41-55 | definition: the settled state for each outcome, with loading off; its properties are stated through `Login.Submit` |
| `Login.Submit` | src/components/auth/LoginForm.tsx:37-56 | invalid credentials change nothing; after a valid attempt loading is off; the user is logged in with the response's token and no error iff the response has `success` and a non-empty token; otherwise store and login state are kept and an error is shown |
| `Login.SubmitAsWritten` | src/components/auth/LoginForm.tsx:42 | as written, every valid attempt shows the thrown TypeError's text and never logs in; the store and the login flag are kept |
| `Login.Accepted` | src/components/auth/LoginForm.tsx:44 | definition: the success flag and a non-empty token |
| `Login.AcceptedLogsIn` | src/components/auth/LoginForm.tsx:44-47 | an accepted response logs in, authenticates the store and shows no error |
| `Login.RejectedShowsError` | src/components/auth/LoginForm.tsx:48-50 | a non-accepted response shows its message if non-empty, else the default text, and changes nothing else |
| `Login.EmptyTokenIsFailure` | src/components/auth/LoginForm.tsx:44-49 | `success` with an empty token is a failure with the default text |
| `Login.ThrownErrorMessage` | src/components/auth/LoginForm.tsx:51-52 | a thrown `Error` shows its own message, any other thrown value the default text |
| `Login.AuthBoundaries` | src/components/auth/LoginForm.tsx:14-17 | a 3-character username and a 6-character password pass; one fewer fails |
| `Login.ValidAuth` | src/components/auth/LoginForm.tsx:14-17 | definition: username of at least 3 and password of at least 6 characters |
| `Login.RetryClearsError` | src/components/auth/LoginForm.tsx:38-47 | an accepted attempt clears an error left by an earlier attempt |

## Findings

| source | as written | input that shows it | evidently intended | confidence | as-written member | corrected member |
|---|---|---|---|---|---|---|
| src/components/inventory/InventoryDashboard.tsx:143 | the average margin divides the margin sum by `products.length` with no guard | delete the last remaining product (`handleDeleteProduct`, line 90): 0 / 0 is NaN, and the card shows `NaN%` | an empty inventory shows an average margin of 0 | high (not executed) | `Inventory.AverageMarginAsWritten` (shown by `Inventory.DeleteLastProductShowsNaN`) | `Inventory.AverageMargin` (bounded by `Inventory.AverageMarginBounds`) |
| src/components/auth/LoginForm.tsx:42 | the form awaits `api.auth.login(...)`, but `api.auth` is `authService` (src/lib/apiService.ts:142-169), which has no `login` | any valid username and password: the call throws a TypeError, which the `catch` at lines 51-52 shows as the error text | `login` posts the credentials and answers `{ success, token, message }`, and an accepted answer logs the user in | medium (not executed; a TypeScript type check would also reject the call) | `Login.SubmitAsWritten` | `Login.Submit` (with `Login.AcceptedLogsIn`) |

## Left out

- Rendering, styling, icons and animation. This includes the view-mode switch, `toFixed` formatting and the presentation-only pages and components (home, navbar, login page, inventory page, animated button).
- src/pages/Sales.tsx. Its only computation is a sum and an unguarded average over a fixed list, the same shape as the dashboard statistics.
- src/components/inventory/ProductFormDialog.tsx. It only passes form values to the add or update mutation.
- src/config/api.ts. It holds constants only.
- The barcode-scan, checkout and edit handlers. They only log; the scan handler also empties the barcode box.
- Console logging (`console.log`/`console.error` in `handleDeleteProduct` and in every `productsApiService` method). It has no effect on the modelled state.
- Floating point. Money and quantities are `real`, so IEEE-754 rounding is not modelled. Neither are the NaN and Infinity results of dividing by a zero price.
- Products.ProfitMargin: requires a non-zero price. The card divides without a guard; a zero price would show Infinity or NaN, which is not modelled. The form rejects a zero price (`ProductForm.ValidFormMarginDefined`).
- Inventory.AverageMarginAsWritten: requires non-zero prices for the same reason. Only the empty-list NaN is modelled.
- `toLowerCase` Unicode semantics. The filter takes the lowering function as a parameter.
- Zod: string-to-number coercion and error messages are not modelled. `min(n)` is counted in Unicode characters, not UTF-16 code units. For the Arabic text in the sample data the two counts are the same.
- The `id` from `Date.now().toString()` in `add` is a parameter.
- Decimal.IntToString: JavaScript writes numbers of 10^21 and more in exponent notation (`1e+21`); the model always writes plain digits. Only HTTP status codes are rendered, so the difference is never reached.
- `localStorage` keys other than `jwt_token`.
- Asynchrony: promises, React state batching and the interceptor's error pass-through. Each handler is one atomic transition.
- The login call (`api.auth.login`) is not defined in the API layer; as written it throws (see Findings). `Login.Submit` takes its outcome as an input, and so is the body any real HTTP call would return.
- A failure inside the `onLoginSuccess` callback, or inside `setToken`, is not modelled.
- `checkResponse` in src/lib/api.ts. Nothing calls it.
- The `catch` branches of `getAll`, `getById`, `add` and `delete` in src/lib/api.ts. Their `try` blocks cannot throw.
- Explicit `undefined` values in a `Partial<Product>`. A present field always sets a value, so a partial cannot clear the optional image.

=== FILE: api_service.dfy ===
/** The HTTP client's policy (src/lib/apiService.ts): the token store kept
    under the `jwt_token` key of the browser's local storage, the request
    interceptor that adds the bearer header, the classification of failed
    requests into messages by `handleApiError`, and how the product service
    turns transport failures into responses or rejections. The transport
    itself is an input: a call either delivers a response body or fails with a
    caught error. */
module ApiService {
  import opened Wrappers
  import opened Decimal

  /* ---------------------------------------------------------------------- */
  /* Token store                                                             */
  /* ---------------------------------------------------------------------- */

  /** The value stored under `jwt_token`, if any. */
  type TokenStore = Option<string>

  /** `authService.setToken`. */
  function SetToken(store: TokenStore, token: string): (s: TokenStore)
    ensures GetToken(s) == Some(token)
  {
    Some(token)
  }

  /** `authService.getToken`. */
  function GetToken(store: TokenStore): Option<string>
  {
    store
  }

  /** `authService.clearToken`. */
  function ClearToken(store: TokenStore): (s: TokenStore)
    ensures GetToken(s) == None && !IsAuthenticated(s)
  {
    None
  }

  /** `authService.isAuthenticated`: `!!getItem(...)`, so an empty token does
      not count. */
  predicate IsAuthenticated(store: TokenStore)
  {
    Truthy(store)
  }

  /** A stored token authenticates exactly when it is non-empty. */
  lemma SetTokenAuthenticates(store: TokenStore, token: string)
    ensures IsAuthenticated(SetToken(store, token)) <==> token != ""
  {
  }

  /** The last token written is the one read back; clearing twice is clearing once. */
  lemma TokenStoreLaws(store: TokenStore, a: string, b: string)
    ensures SetToken(SetToken(store, a), b) == SetToken(store, b)
    ensures ClearToken(ClearToken(store)) == ClearToken(store)
    ensures GetToken(ClearToken(SetToken(store, a))) == None
  {
  }

  /* ---------------------------------------------------------------------- */
  /* Request interceptor                                                     */
  /* ---------------------------------------------------------------------- */

  /** The outgoing request's headers. */
  datatype RequestConfig = RequestConfig(headers: map<string, string>)

  const AuthorizationHeader: string := "Authorization"
  const BearerPrefix: string := "Bearer "

  /** The interceptor: when a non-empty token is stored, the request carries
      `Authorization: Bearer <token>`; otherwise the request is left as it is.
      No other header is touched. */
  function AttachToken(config: RequestConfig, store: TokenStore): (c: RequestConfig)
    ensures Truthy(store) ==>
      AuthorizationHeader in c.headers && c.headers[AuthorizationHeader] == BearerPrefix + store.value
    ensures !Truthy(store) ==> c == config
    ensures forall k :: k != AuthorizationHeader ==>
      (k in c.headers <==> k in config.headers) &&
      (k in config.headers ==> c.headers[k] == config.headers[k])
  {
    if Truthy(store) then RequestConfig(config.headers[AuthorizationHeader := BearerPrefix + store.value])
    else config
  }

  /** Reads the token back out of an Authorization header value. */
  function BearerToken(header: string): Option<string>
  {
    if |BearerPrefix| <= |header| && header[..|BearerPrefix|] == BearerPrefix
    then Some(header[|BearerPrefix|..])
    else None
  }

  /** The header the interceptor writes carries exactly the stored token. */
  lemma BearerRoundTrip(config: RequestConfig, store: TokenStore)
    requires Truthy(store)
    ensures BearerToken(AttachToken(config, store).headers[AuthorizationHeader]) == store
  {
    var h := BearerPrefix + store.value;
    assert h[..|BearerPrefix|] == BearerPrefix;
    assert h[|BearerPrefix|..] == store.value;
  }

  /** Running the interceptor twice is running it once. */
  lemma AttachTokenIdempotent(config: RequestConfig, store: TokenStore)
    ensures AttachToken(AttachToken(config, store), store) == AttachToken(config, store)
  {
  }

  /** After `setToken(t)` with a non-empty `t` the next request carries it;
      after `clearToken` requests go out untouched. */
  lemma InterceptorFollowsStore(config: RequestConfig, store: TokenStore, t: string)
    requires t != ""
    ensures AttachToken(config, SetToken(store, t)).headers[AuthorizationHeader] == BearerPrefix + t
    ensures AttachToken(config, ClearToken(store)) == config
  {
  }

  /* ---------------------------------------------------------------------- */
  /* handleApiError                                                          */
  /* ---------------------------------------------------------------------- */

  /** The status and the server's `data.message`, when a response arrived. */
  datatype ErrorResponse = ErrorResponse(status: int, message: Option<string>)

  /** What a `catch` clause can receive: an Axios error (with the response if
      one arrived, and whether the request went out), any other `Error`, or
      something that is not an `Error` at all. */
  datatype CaughtError =
    | AxiosError(response: Option<ErrorResponse>, requestSent: bool, message: string)
    | PlainError(message: string)
    | NonError

  /** The `Error` that `handleApiError` throws. */
  datatype Thrown = Thrown(message: string)

  /** The thrown error and the token store after the handler ran. */
  datatype Handled = Handled(thrown: Thrown, store: TokenStore)

  const UnexpectedMessage: string := "حدث خطأ غير متوقع"
  const UnauthorizedMessage: string := "غير مصرح: الرجاء تسجيل الدخول مرة أخرى"
  const ForbiddenMessage: string := "ممنوع: ليس لديك صلاحية للوصول إلى هذا المورد"
  const NoResponseMessage: string := "لم يتم استلام استجابة من الخادم، تأكد من تشغيل الخادم على المنفذ 2000"
  const StatusPrefix: string := "خطأ: "
  const RequestErrorPrefix: string := "خطأ في الطلب: "

  /** The failure is a server answer with status 401. */
  predicate IsUnauthorized(error: CaughtError)
  {
    error.AxiosError? && error.response.Some? && error.response.value.status == 401
  }

  /** `handleApiError`. Its declared result type is `never`: every path
      throws, which the result type `Handled` (a thrown error, never a value)
      makes explicit. A 401 answer also removes the stored token; nothing
      else touches the store. */
  function HandleApiError(error: CaughtError, store: TokenStore): (h: Handled)
    ensures IsUnauthorized(error) ==> h.store == None && h.thrown.message == UnauthorizedMessage
    ensures !IsUnauthorized(error) ==> h.store == store
    ensures error.AxiosError? && error.response.Some? && error.response.value.status == 403 ==>
      h.thrown.message == ForbiddenMessage
    ensures error.AxiosError? && error.response.Some? && error.response.value.status !in {401, 403} ==>
      h.thrown.message == OrElse(error.response.value.message, StatusPrefix + IntToString(error.response.value.status))
    ensures error.AxiosError? && error.response.None? && error.requestSent ==>
      h.thrown.message == NoResponseMessage
    ensures error.AxiosError? && error.response.None? && !error.requestSent ==>
      h.thrown.message == RequestErrorPrefix + error.message
    ensures error.PlainError? ==> h.thrown.message == error.message
    ensures error.NonError? ==> h.thrown.message == UnexpectedMessage
  {
    match error
    case AxiosError(response, requestSent, message) =>
      if response.Some? then
        var status := response.value.status;
        if status == 401 then Handled(Thrown(UnauthorizedMessage), ClearToken(store))
        else if status == 403 then Handled(Thrown(ForbiddenMessage), store)
        else Handled(Thrown(OrElse(response.value.message, StatusPrefix + IntToString(status))), store)
      else if requestSent then Handled(Thrown(NoResponseMessage), store)
      else Handled(Thrown(RequestErrorPrefix + message), store)
    case PlainError(message) => Handled(Thrown(message), store)
    case NonError => Handled(Thrown(UnexpectedMessage), store)
  }

  /** 401 is the only failure that logs the user out. */
  lemma OnlyUnauthorizedClearsToken(error: CaughtError, store: TokenStore)
    requires IsAuthenticated(store)
    ensures !IsAuthenticated(HandleApiError(error, store).store) <==> IsUnauthorized(error)
  {
  }

  /** Two answers with different statuses and no server message produce
      different messages, unless one of them is 401 or 403. */
  lemma StatusMessagesDistinct(a: int, b: int, sentA: bool, sentB: bool, msgA: string, msgB: string,
                               store: TokenStore)
    requires a !in {401, 403} && b !in {401, 403} && a != b
    ensures HandleApiError(AxiosError(Some(ErrorResponse(a, None)), sentA, msgA), store).thrown !=
            HandleApiError(AxiosError(Some(ErrorResponse(b, None)), sentB, msgB), store).thrown
  {
    if StatusPrefix + IntToString(a) == StatusPrefix + IntToString(b) {
      assert IntToString(a) == (StatusPrefix + IntToString(a))[|StatusPrefix|..];
      assert IntToString(b) == (StatusPrefix + IntToString(b))[|StatusPrefix|..];
      IntToStringInjective(a, b);
    }
  }

  /** An empty server message falls back to the status text, e.g. 500 gives
      "خطأ: 500". */
  lemma EmptyServerMessageFallsBack(store: TokenStore)
    ensures HandleApiError(AxiosError(Some(ErrorResponse(500, Some(""))), true, ""), store).thrown
      == Thrown(StatusPrefix + "500")
  {
    assert NatToString(500) == NatToString(50) + ['0'];
    assert NatToString(50) == NatToString(5) + ['0'];
  }

  /** After a 401 the next request goes out without an Authorization header. */
  lemma UnauthorizedStopsBearer(error: CaughtError, store: TokenStore, config: RequestConfig)
    requires IsUnauthorized(error)
    ensures AttachToken(config, HandleApiError(error, store).store) == config
  {
  }

  /* ---------------------------------------------------------------------- */
  /* productsApiService                                                      */
  /* ---------------------------------------------------------------------- */

  /** What the HTTP transport did with a request. */
  datatype Transport<+T> = Delivered(body: ApiResponse<T>) | Failed(error: CaughtError)

  /** How the service's promise settles. */
  datatype Settled<+T> = Resolved(response: ApiResponse<T>) | Rejected(thrown: Thrown)

  /** The settled promise and the token store afterwards. */
  datatype ServiceCall<+T> = ServiceCall(outcome: Settled<T>, store: TokenStore)

  /** `error instanceof Error ? error.message : fallback`. */
  function ErrorMessage(error: CaughtError, fallback: string): string
  {
    match error
    case AxiosError(_, _, message) => message
    case PlainError(message) => message
    case NonError => fallback
  }

  /** `getAll` and `getById`: the body on delivery; on failure a resolved
      failure response with the fallback data and the error's message.
      These two never reject and never touch the token store. */
  function Fetch<T>(t: Transport<T>, store: TokenStore, fallback: T, defaultMessage: string): (c: ServiceCall<T>)
    ensures c.outcome.Resolved? && c.store == store
    ensures t.Delivered? ==> c.outcome.response == t.body
    ensures t.Failed? ==>
      c.outcome.response == ApiResponse(false, fallback, Some(ErrorMessage(t.error, defaultMessage)))
  {
    match t
    case Delivered(body) => ServiceCall(Resolved(body), store)
    case Failed(error) =>
      ServiceCall(Resolved(ApiResponse(false, fallback, Some(ErrorMessage(error, defaultMessage)))), store)
  }

  /** `create`, `update` and `delete`: the body on delivery; on failure the
      promise rejects with what `handleApiError` throws, and its token rule
      applies. */
  function Mutate<T>(t: Transport<T>, store: TokenStore): (c: ServiceCall<T>)
    ensures t.Delivered? ==> c == ServiceCall(Resolved(t.body), store)
    ensures t.Failed? ==>
      && c.outcome.Rejected?
      && c.outcome.thrown == HandleApiError(t.error, store).thrown
      && c.store == HandleApiError(t.error, store).store
  {
    match t
    case Delivered(body) => ServiceCall(Resolved(body), store)
    case Failed(error) =>
      var h := HandleApiError(error, store);
      ServiceCall(Rejected(h.thrown), h.store)
  }

  /** A 401 while reading products keeps the token, while a 401 while
      changing one clears it: only the mutating calls go through the handler. */
  lemma UnauthorizedReadKeepsToken<T>(error: CaughtError, store: TokenStore, fallback: T, msg: string)
    requires IsUnauthorized(error)
    ensures Fetch(Failed(error), store, fallback, msg).store == store
    ensures Mutate<T>(Failed(error), store).store == None
    ensures Mutate<T>(Failed(error), store).outcome == Rejected(Thrown(UnauthorizedMessage))
  {
  }
}

=== FILE: cart.dfy ===
/** The sales register's cart (src/components/sales/TransactionPanel.tsx):
    line items, the quantity change, the removal of a line, and the derived
    subtotal, VAT and grand total. The cart is a value; each handler returns
    the next cart instead of calling the state setter. */
module Cart {
  import opened Seqs

  /** One sale line: a denormalised copy of a product's id, name and unit
      price, the quantity sold and the stored line total. */
  datatype CartItem = CartItem(id: string, name: string, price: real, quantity: real, total: real)

  /** The fixed VAT rate, 15%. */
  const TaxRate: real := 0.15

  /** The cart the panel starts with. */
  const SeedCart: seq<CartItem> := [
    CartItem("1", "حليب كامل الدسم", 5.99, 2.0, 11.98),
    CartItem("4", "زيت زيتون", 35.75, 1.0, 35.75)
  ]

  /** The stored line total agrees with unit price times quantity. */
  predicate LineConsistent(item: CartItem)
  {
    item.total == item.price * item.quantity
  }

  /** Every line of the cart is consistent. */
  predicate Consistent(cart: seq<CartItem>)
  {
    forall i :: 0 <= i < |cart| ==> LineConsistent(cart[i])
  }

  /** `updateQuantity(id, q)`: a quantity below 1 is rejected and the cart is
      left as it is; otherwise every line with that id takes quantity `q` and
      its total is recomputed from its unit price. */
  function UpdateQuantity(cart: seq<CartItem>, id: string, q: real): (r: seq<CartItem>)
    ensures |r| == |cart|
    ensures q < 1.0 ==> r == cart
    ensures forall i :: 0 <= i < |cart| && cart[i].id != id ==> r[i] == cart[i]
    ensures forall i :: 0 <= i < |cart| && cart[i].id == id && q >= 1.0 ==>
      && r[i].id == cart[i].id
      && r[i].name == cart[i].name
      && r[i].price == cart[i].price
      && r[i].quantity == q
      && LineConsistent(r[i])
  {
    if q < 1.0 then cart
    else
      seq(|cart|, i requires 0 <= i < |cart| =>
        if cart[i].id == id then cart[i].(quantity := q, total := cart[i].price * q) else cart[i])
  }

  /** The line's stored total, the term the subtotal sums. */
  function LineTotal(item: CartItem): real
  {
    item.total
  }

  /** Unit price times quantity: what the line total should be. */
  function LineValue(item: CartItem): real
  {
    item.price * item.quantity
  }

  /** The line belongs to product `id`. */
  function HasId(id: string): CartItem -> bool
  {
    (item: CartItem) => item.id == id
  }

  /** The line belongs to another product than `id`; the filter `removeItem` keeps. */
  function OtherThan(id: string): CartItem -> bool
  {
    (item: CartItem) => item.id != id
  }

  /** `removeItem(id)`: every line with that id is dropped; the others stay,
      in order, each as many times as it occurred. */
  function RemoveItem(cart: seq<CartItem>, id: string): (r: seq<CartItem>)
    ensures forall i :: 0 <= i < |r| ==> r[i].id != id
    ensures forall i :: 0 <= i < |cart| && cart[i].id != id ==> cart[i] in r
    ensures forall x {:trigger multiset(r)[x]} :: multiset(r)[x] == if x.id != id then multiset(cart)[x] else 0
    ensures IsSubsequence(r, cart)
  {
    FilterIsSubsequence(cart, OtherThan(id));
    FilterMultiset(cart, OtherThan(id));
    Filter(cart, OtherThan(id))
  }

  /** The totals shown under the cart. */
  datatype Totals = Totals(subtotal: real, tax: real, total: real)

  /** Sum of the stored line totals. */
  function Subtotal(cart: seq<CartItem>): real
  {
    Sum(cart, LineTotal)
  }

  /** Subtotal, VAT at the fixed rate, and the grand total. */
  function ComputeTotals(cart: seq<CartItem>): (t: Totals)
    ensures t.subtotal == Subtotal(cart)
    ensures t.tax == TaxRate * t.subtotal
    ensures t.total == t.subtotal * 1.15
    ensures cart == [] ==> t == Totals(0.0, 0.0, 0.0)
  {
    var subtotal := Subtotal(cart);
    var tax := subtotal * TaxRate;
    Totals(subtotal, tax, subtotal + tax)
  }

  /** With non-negative line totals, 0 <= subtotal <= total and the tax is
      non-negative. */
  lemma TotalsBounds(cart: seq<CartItem>)
    requires forall i :: 0 <= i < |cart| ==> cart[i].total >= 0.0
    ensures var t := ComputeTotals(cart); 0.0 <= t.subtotal <= t.total && 0.0 <= t.tax
  {
    SumNonNegative(cart, LineTotal);
  }

  /* ---------------------------------------------------------------------- */
  /* The consistency invariant                                               */
  /* ---------------------------------------------------------------------- */

  /** The seed cart is consistent, and its totals are 47.73, 7.1595 and 54.8895. */
  lemma SeedCartTotals()
    ensures Consistent(SeedCart)
    ensures ComputeTotals(SeedCart) == Totals(47.73, 7.1595, 54.8895)
  {
    assert Subtotal(SeedCart) == 11.98 + Subtotal(SeedCart[1..]);
    assert Subtotal(SeedCart[1..]) == 35.75 + Subtotal(SeedCart[2..]);
  }

  /** Changing a quantity keeps a consistent cart consistent. */
  lemma UpdateKeepsConsistent(cart: seq<CartItem>, id: string, q: real)
    requires Consistent(cart)
    ensures Consistent(UpdateQuantity(cart, id, q))
  {
  }

  /** Removing lines keeps a consistent cart consistent. */
  lemma RemoveKeepsConsistent(cart: seq<CartItem>, id: string)
    requires Consistent(cart)
    ensures Consistent(RemoveItem(cart, id))
  {
    var r := RemoveItem(cart, id);
    forall i | 0 <= i < |r| ensures LineConsistent(r[i]) {
      var j :| 0 <= j < |cart| && cart[j] == r[i];
    }
  }

  /** In a consistent cart the subtotal is the sum of price times quantity:
      the stored totals never drift from the quantities. */
  lemma {:induction false} ConsistentSubtotal(cart: seq<CartItem>)
    requires Consistent(cart)
    ensures Subtotal(cart) == Sum(cart, LineValue)
    decreases |cart|
  {
    if cart != [] {
      ConsistentSubtotal(cart[1..]);
      assert Subtotal(cart) == cart[0].total + Subtotal(cart[1..]);
    }
  }

  /* ---------------------------------------------------------------------- */
  /* Quantity changes                                                        */
  /* ---------------------------------------------------------------------- */

  /** A quantity change for an id that is not in the cart changes nothing. */
  lemma UpdateUnknownId(cart: seq<CartItem>, id: string, q: real)
    requires forall i :: 0 <= i < |cart| ==> cart[i].id != id
    ensures UpdateQuantity(cart, id, q) == cart
  {
  }

  /** Of two accepted quantity changes for the same id, the second wins; a
      rejected first change leaves only the second. */
  lemma UpdateLastWins(cart: seq<CartItem>, id: string, q1: real, q2: real)
    requires q2 >= 1.0
    ensures UpdateQuantity(UpdateQuantity(cart, id, q1), id, q2) == UpdateQuantity(cart, id, q2)
  {
    var a := UpdateQuantity(UpdateQuantity(cart, id, q1), id, q2);
    var b := UpdateQuantity(cart, id, q2);
    forall i | 0 <= i < |a| ensures a[i] == b[i] {
    }
  }

  /** Setting the same quantity twice is the same as setting it once. */
  lemma UpdateIdempotent(cart: seq<CartItem>, id: string, q: real)
    ensures UpdateQuantity(UpdateQuantity(cart, id, q), id, q) == UpdateQuantity(cart, id, q)
  {
    if q >= 1.0 {
      UpdateLastWins(cart, id, q, q);
    }
  }

  /** The "−" button on a line with quantity 1 asks for quantity 0, which is
      rejected: a line never reaches quantity 0 through the buttons. */
  lemma DecrementAtOneRejected(cart: seq<CartItem>, i: int)
    requires 0 <= i < |cart| && cart[i].quantity == 1.0
    ensures UpdateQuantity(cart, cart[i].id, cart[i].quantity - 1.0) == cart
  {
  }

  /** In a consistent cart, setting a quantity changes the subtotal by the
      unit price times the change in quantity, summed over the matching lines. */
  lemma {:induction false} UpdateSubtotal(cart: seq<CartItem>, id: string, q: real)
    requires Consistent(cart) && q >= 1.0
    ensures Subtotal(UpdateQuantity(cart, id, q)) ==
      Subtotal(cart) + Sum(cart, (item: CartItem) => if item.id == id then item.price * (q - item.quantity) else 0.0)
    decreases |cart|
  {
    var r := UpdateQuantity(cart, id, q);
    if cart != [] {
      UpdateSubtotal(cart[1..], id, q);
      var tail := UpdateQuantity(cart[1..], id, q);
      forall i | 0 <= i < |tail| ensures r[1..][i] == tail[i] {
      }
      assert r[1..] == tail;
      assert Subtotal(r) == r[0].total + Subtotal(r[1..]);
      assert Subtotal(cart) == cart[0].total + Subtotal(cart[1..]);
    }
  }

  /* ---------------------------------------------------------------------- */
  /* Removal                                                                 */
  /* ---------------------------------------------------------------------- */

  /** Removing an id that is not in the cart changes nothing. */
  lemma RemoveAbsent(cart: seq<CartItem>, id: string)
    requires forall i :: 0 <= i < |cart| ==> cart[i].id != id
    ensures RemoveItem(cart, id) == cart
  {
    FilterKeepsAll(cart, OtherThan(id));
  }

  /** Removing the same id twice is the same as removing it once. */
  lemma RemoveIdempotent(cart: seq<CartItem>, id: string)
    ensures RemoveItem(RemoveItem(cart, id), id) == RemoveItem(cart, id)
  {
    FilterIdempotent(cart, OtherThan(id));
  }

  /** Removals of two ids can happen in either order. */
  lemma RemoveCommutes(cart: seq<CartItem>, a: string, b: string)
    ensures RemoveItem(RemoveItem(cart, a), b) == RemoveItem(RemoveItem(cart, b), a)
  {
    FilterCommute(cart, OtherThan(a), OtherThan(b));
  }

  /** Removing an id lowers the subtotal by exactly the totals of its lines. */
  lemma RemoveSubtotal(cart: seq<CartItem>, id: string)
    ensures Subtotal(RemoveItem(cart, id)) == Subtotal(cart) - Subtotal(Filter(cart, HasId(id)))
  {
    SumSplit(cart, LineTotal, HasId(id), OtherThan(id));
  }

  /** Emptying the cart line by line brings every total back to zero. */
  lemma RemoveOnlyLine(item: CartItem)
    ensures RemoveItem([item], item.id) == []
    ensures ComputeTotals(RemoveItem([item], item.id)) == Totals(0.0, 0.0, 0.0)
  {
  }
}

=== FILE: decimal.dfy ===
/** Decimal rendering of integers, as JavaScript's template literal renders an
    HTTP status code (`${status}`): an optional minus sign, then the digits
    without leading zeros. JavaScript switches to exponent notation from
    10^21 on; a status code never gets near that, and the model does not
    follow it. Parsing is the inverse, which makes the rendering injective. */
module Decimal {

  predicate IsDigit(c: char)
  {
    '0' <= c <= '9'
  }

  function DigitChar(d: nat): (c: char)
    requires d < 10
    ensures IsDigit(c)
  {
    ('0' as int + d) as char
  }

  function DigitValue(c: char): (d: nat)
    requires IsDigit(c)
    ensures d < 10
  {
    c as int - '0' as int
  }

  predicate AllDigits(s: string)
  {
    forall i :: 0 <= i < |s| ==> IsDigit(s[i])
  }

  /** The decimal digits of `n`, most significant first. */
  function NatToString(n: nat): (s: string)
    ensures |s| >= 1
    ensures AllDigits(s)
    ensures |s| > 1 ==> s[0] != '0'
    decreases n
  {
    if n < 10 then [DigitChar(n)] else NatToString(n / 10) + [DigitChar(n % 10)]
  }

  /** The value of a string of decimal digits. */
  function ParseNat(s: string): nat
    requires AllDigits(s)
    decreases |s|
  {
    if s == [] then 0 else ParseNat(s[..|s| - 1]) * 10 + DigitValue(s[|s| - 1])
  }

  /** Parsing a rendered number gives the number back. */
  lemma {:induction false} NatRoundTrip(n: nat)
    ensures ParseNat(NatToString(n)) == n
    decreases n
  {
    if n >= 10 {
      var s := NatToString(n);
      var prefix := NatToString(n / 10);
      assert s[..|s| - 1] == prefix;
      NatRoundTrip(n / 10);
    }
  }

  /** `${i}` for an integral number `i`: a minus sign exactly for a
      negative number, then only digits. */
  function IntToString(i: int): (s: string)
    ensures |s| > 0
    ensures s[0] == '-' <==> i < 0
    ensures AllDigits(if i < 0 then s[1..] else s)
    ensures i >= 0 && |s| > 1 ==> s[0] != '0'
    ensures i < 0 ==> |s| > 1 && (|s| > 2 ==> s[1] != '0')
  {
    if i < 0 then "-" + NatToString(-i) else NatToString(i)
  }

  /** Parses what `IntToString` produces. */
  function ParseInt(s: string): int
  {
    if |s| > 0 && s[0] == '-' && AllDigits(s[1..]) then 0 - ParseNat(s[1..])
    else if AllDigits(s) then ParseNat(s)
    else 0
  }

  /** Parsing a rendered integer gives the integer back. */
  lemma IntRoundTrip(i: int)
    ensures ParseInt(IntToString(i)) == i
  {
    if i < 0 {
      var s := IntToString(i);
      assert s[1..] == NatToString(-i);
      NatRoundTrip(-i);
    } else {
      NatRoundTrip(i);
    }
  }

  /** Different integers render differently. */
  lemma IntToStringInjective(a: int, b: int)
    requires IntToString(a) == IntToString(b)
    ensures a == b
  {
    IntRoundTrip(a);
    IntRoundTrip(b);
  }
}

=== FILE: inventory.dfy ===
/** The inventory dashboard's view computations
    (src/components/inventory/InventoryDashboard.tsx): the search and
    low-stock filter, the low-stock counter, deletion by id, and the two
    statistics cards (total stock value and average profit margin). */
module Inventory {
  import opened Wrappers
  import opened Seqs
  import opened Products

  /* ---------------------------------------------------------------------- */
  /* Search and low-stock filter                                             */
  /* ---------------------------------------------------------------------- */

  /** The search box test. Name and category are compared after lowering both
      sides; the barcode is compared with the raw term. `lower` stands for the
      host's `String.prototype.toLowerCase`. */
  predicate MatchesSearch(p: Product, term: string, lower: string -> string)
  {
    || Includes(lower(p.name), lower(term))
    || Includes(p.barcode, term)
    || Includes(lower(p.category), lower(term))
  }

  /** The same test stated with substring occurrences instead of the search
      function: the reference the filter is proved against. */
  ghost predicate SearchHit(p: Product, term: string, lower: string -> string)
  {
    || (exists i :: OccursAt(lower(p.name), lower(term), i))
    || (exists i :: OccursAt(p.barcode, term, i))
    || (exists i :: OccursAt(lower(p.category), lower(term), i))
  }

  /** The predicate the dashboard passes to `products.filter`. */
  function Keeps(term: string, lowStockOnly: bool, lower: string -> string): Product -> bool
  {
    (p: Product) =>
      if lowStockOnly then MatchesSearch(p, term, lower) && IsLowStock(p)
      else MatchesSearch(p, term, lower)
  }

  /** `filteredProducts`: the products that match the search, restricted to
      low-stock ones when the toggle is on, in their original order, each kept
      product as many times as it occurs. */
  function FilteredProducts(products: seq<Product>, term: string, lowStockOnly: bool,
                            lower: string -> string): (r: seq<Product>)
    ensures IsSubsequence(r, products)
    ensures forall i :: 0 <= i < |r| ==>
      SearchHit(r[i], term, lower) && (lowStockOnly ==> IsLowStock(r[i]))
    ensures forall i ::
      (0 <= i < |products| && SearchHit(products[i], term, lower) &&
       (lowStockOnly ==> IsLowStock(products[i]))) ==> products[i] in r
    ensures forall x {:trigger multiset(r)[x]} :: multiset(r)[x] ==
                                                    (if SearchHit(x, term, lower) && (lowStockOnly ==> IsLowStock(x))
                                                     then multiset(products)[x] else 0)
  {
    FilterIsSubsequence(products, Keeps(term, lowStockOnly, lower));
    FilterMultiset(products, Keeps(term, lowStockOnly, lower));
    Filter(products, Keeps(term, lowStockOnly, lower))
  }

  /** An empty search term with the toggle off shows every product: the
      barcode of every product includes the empty string. */
  lemma EmptySearchShowsAll(products: seq<Product>, lower: string -> string)
    ensures FilteredProducts(products, "", false, lower) == products
  {
    forall p | p in products ensures Keeps("", false, lower)(p) {
      IncludesEmpty(p.barcode);
    }
    FilterKeepsAll(products, Keeps("", false, lower));
  }

  /** Typing (or scanning) a product's exact barcode into the search box shows
      that product, whatever the host's lower-casing does. */
  lemma SearchByBarcodeShowsProduct(products: seq<Product>, k: nat, lower: string -> string)
    requires k < |products|
    ensures products[k] in FilteredProducts(products, products[k].barcode, false, lower)
  {
    IncludesSelf(products[k].barcode);
    assert Keeps(products[k].barcode, false, lower)(products[k]);
  }

  /** Nothing is shown for an empty product list, whatever the search. */
  lemma EmptyInventoryShowsNothing(term: string, lowStockOnly: bool, lower: string -> string)
    ensures FilteredProducts([], term, lowStockOnly, lower) == []
  {
  }

  /** Turning the low-stock toggle on keeps a subsequence of what is shown
      with it off, and every product it keeps is low on stock. */
  lemma LowStockToggleNarrows(products: seq<Product>, term: string, lower: string -> string)
    ensures IsSubsequence(FilteredProducts(products, term, true, lower),
                          FilteredProducts(products, term, false, lower))
    ensures forall p :: p in FilteredProducts(products, term, true, lower) ==> IsLowStock(p)
  {
    FilterMonotone(products, Keeps(term, true, lower), Keeps(term, false, lower));
  }

  /** With the toggle on, the view is the toggle-off view filtered by the
      low-stock predicate. */
  lemma {:induction false} LowStockToggleIsSecondFilter(products: seq<Product>, term: string, lower: string -> string)
    ensures FilteredProducts(products, term, true, lower) ==
            Filter(FilteredProducts(products, term, false, lower), IsLowStock)
  {
    FilterCompose(products, Keeps(term, false, lower), IsLowStock, Keeps(term, true, lower));
  }

  /* ---------------------------------------------------------------------- */
  /* Low-stock counter                                                       */
  /* ---------------------------------------------------------------------- */

  /** `lowStockCount`: the length of the low-stock sublist. */
  function LowStockCount(products: seq<Product>): (n: nat)
    ensures n <= |products|
  {
    |Filter(products, IsLowStock)|
  }

  /** Counting the low-stock products one by one: the reference definition. */
  ghost function CountLowStock(products: seq<Product>): nat
  {
    if products == [] then 0
    else (if IsLowStock(products[0]) then 1 else 0) + CountLowStock(products[1..])
  }

  /** The counter counts exactly the products with `quantity <= minStock`. */
  lemma {:induction false} LowStockCountIsCount(products: seq<Product>)
    ensures LowStockCount(products) == CountLowStock(products)
    decreases |products|
  {
    if products != [] {
      LowStockCountIsCount(products[1..]);
    }
  }

  /** The counter equals the size of the view for an empty search with the
      toggle on: the card and the filter agree. */
  lemma LowStockCountMatchesToggle(products: seq<Product>, lower: string -> string)
    ensures LowStockCount(products) == |FilteredProducts(products, "", true, lower)|
  {
    forall p | p in products ensures IsLowStock(p) == Keeps("", true, lower)(p) {
      IncludesEmpty(p.barcode);
    }
    FilterCongruent(products, IsLowStock, Keeps("", true, lower));
  }

  /** When no product is low on stock the counter shows 0. */
  lemma NoLowStockCountsZero(products: seq<Product>)
    requires forall i :: 0 <= i < |products| ==> products[i].quantity > products[i].minStock
    ensures LowStockCount(products) == 0
  {
    FilterKeepsNone(products, IsLowStock);
  }

  /** Two of the six sample products (quantities 3 and 2) are low on stock. */
  lemma SampleLowStockCount()
    ensures LowStockCount(SampleProducts) == 2
  {
    LowStockCountIsCount(SampleProducts);
    var s := SampleProducts;
    assert s[1..][1..][1..][1..][1..][1..] == [];
  }

  /* ---------------------------------------------------------------------- */
  /* Deletion                                                                */
  /* ---------------------------------------------------------------------- */

  /** The product has the identifier `id`. */
  function HasId(id: string): Product -> bool
  {
    (p: Product) => p.id == id
  }

  /** The product belongs to another id than `id`; the filter deletion keeps. */
  function OtherThan(id: string): Product -> bool
  {
    (p: Product) => p.id != id
  }

  /** `handleDeleteProduct(id)`: every product with that id goes; the others
      stay, in order, each as many times as it occurred; deleting a listed id
      makes the list shorter. */
  function DeleteProduct(products: seq<Product>, id: string): (r: seq<Product>)
    ensures forall i :: 0 <= i < |r| ==> r[i].id != id
    ensures forall i :: 0 <= i < |products| && products[i].id != id ==> products[i] in r
    ensures forall x {:trigger multiset(r)[x]} :: multiset(r)[x] == if x.id != id then multiset(products)[x] else 0
    ensures IsSubsequence(r, products)
    ensures forall k :: 0 <= k < |products| && products[k].id == id ==> |r| < |products|
  {
    FilterIsSubsequence(products, OtherThan(id));
    FilterMultiset(products, OtherThan(id));
    assert forall k :: 0 <= k < |products| && products[k].id == id ==>
      |Filter(products, OtherThan(id))| < |products| by {
      forall k | 0 <= k < |products| && products[k].id == id
        ensures |Filter(products, OtherThan(id))| < |products|
      {
        FilterShrinks(products, OtherThan(id), k);
      }
    }
    Filter(products, OtherThan(id))
  }

  /** Deleting twice is deleting once, and deleting an absent id changes nothing. */
  lemma DeleteIdempotent(products: seq<Product>, id: string)
    ensures DeleteProduct(DeleteProduct(products, id), id) == DeleteProduct(products, id)
    ensures (forall i :: 0 <= i < |products| ==> products[i].id != id) ==>
      DeleteProduct(products, id) == products
  {
    FilterIdempotent(products, OtherThan(id));
    if forall i :: 0 <= i < |products| ==> products[i].id != id {
      FilterKeepsAll(products, OtherThan(id));
    }
  }

  /** Deleting a product never raises the low-stock count. */
  lemma DeleteNeverRaisesLowStock(products: seq<Product>, id: string)
    ensures LowStockCount(DeleteProduct(products, id)) <= LowStockCount(products)
  {
    FilterCommute(products, OtherThan(id), IsLowStock);
  }

  /* ---------------------------------------------------------------------- */
  /* Statistics                                                              */
  /* ---------------------------------------------------------------------- */

  /** The stock value of one product: its cost times the quantity on hand. */
  function StockValue(p: Product): real
  {
    p.cost * p.quantity
  }

  /** The "total value" card: the sum of cost times quantity. */
  function TotalValue(products: seq<Product>): real
  {
    Sum(products, StockValue)
  }

  /** With non-negative costs and quantities the total value is non-negative. */
  lemma TotalValueNonNegative(products: seq<Product>)
    requires forall i :: 0 <= i < |products| ==> products[i].cost >= 0.0 && products[i].quantity >= 0.0
    ensures TotalValue(products) >= 0.0
  {
    SumNonNegative(products, StockValue);
  }

  /** Deleting a product removes exactly its stock value from the total. */
  lemma DeleteLowersTotalValue(products: seq<Product>, id: string)
    ensures TotalValue(DeleteProduct(products, id)) ==
            TotalValue(products) - TotalValue(Filter(products, HasId(id)))
  {
    SumSplit(products, StockValue, HasId(id), OtherThan(id));
  }

  /** The sample stock is worth 1477.85. */
  lemma SampleTotalValue()
    ensures TotalValue(SampleProducts) == 1477.85
  {
    var s := SampleProducts;
    assert TotalValue(s) == 189.0 + TotalValue(s[1..]);
    assert TotalValue(s[1..]) == 675.0 + TotalValue(s[2..]);
    assert TotalValue(s[2..]) == 26.25 + TotalValue(s[3..]);
    assert TotalValue(s[3..]) == 429.0 + TotalValue(s[4..]);
    assert TotalValue(s[4..]) == 143.0 + TotalValue(s[5..]);
    assert TotalValue(s[5..]) == 15.6 + TotalValue(s[6..]);
  }

  /** Every price in the list is non-zero, so every card margin is defined. */
  predicate PricesNonZero(products: seq<Product>)
  {
    forall i :: 0 <= i < |products| ==> products[i].price != 0.0
  }

  /** The sum of the per-product margins. */
  function MarginSum(products: seq<Product>): real
    requires PricesNonZero(products)
  {
    if products == [] then 0.0 else ProfitMargin(products[0]) + MarginSum(products[1..])
  }

  /** The "average margin" card as written: the margin sum divided by the
      product count, with no guard. On an empty list this is 0 / 0, which
      JavaScript evaluates to NaN; `None` stands for that NaN. */
  function AverageMarginAsWritten(products: seq<Product>): (r: Option<real>)
    requires PricesNonZero(products)
    ensures r.None? <==> products == []
    ensures r.Some? ==> r.value * |products| as real == MarginSum(products)
  {
    if |products| == 0 then None else Some(MarginSum(products) / |products| as real)
  }

  /** The average margin with the empty-list guard: 0 when there are no
      products, the mean of the per-product margins otherwise. */
  function AverageMargin(products: seq<Product>): (r: real)
    requires PricesNonZero(products)
    ensures products == [] ==> r == 0.0
    ensures products != [] ==> AverageMarginAsWritten(products) == Some(r)
  {
    if |products| == 0 then 0.0 else MarginSum(products) / |products| as real
  }

  /** Deleting the only product empties the list, and the unguarded card then
      shows NaN. */
  lemma DeleteLastProductShowsNaN(p: Product)
    requires p.price != 0.0
    ensures DeleteProduct([p], p.id) == []
    ensures AverageMarginAsWritten(DeleteProduct([p], p.id)) == None
    ensures AverageMargin(DeleteProduct([p], p.id)) == 0.0
  {
  }

  /** When every product sells above a positive cost, each margin lies
      strictly between 0 and 100, and so does their sum divided by the count. */
  lemma {:induction false} MarginSumBounds(products: seq<Product>)
    requires forall i :: 0 <= i < |products| ==>
      0.0 < products[i].cost < products[i].price
    ensures 0.0 <= MarginSum(products) <= 100.0 * |products| as real
    ensures products != [] ==> 0.0 < MarginSum(products) < 100.0 * |products| as real
    decreases |products|
  {
    if products != [] {
      MarginSumBounds(products[1..]);
      MarginSign(products[0]);
      MarginBelowHundred(products[0]);
    }
  }

  /** The guarded average of margins between 0 and 100 lies between 0 and 100. */
  lemma AverageMarginBounds(products: seq<Product>)
    requires products != []
    requires forall i :: 0 <= i < |products| ==> 0.0 < products[i].cost < products[i].price
    ensures 0.0 < AverageMargin(products) < 100.0
  {
    MarginSumBounds(products);
    var n := |products| as real;
    var a := AverageMargin(products);
    assert a * n == MarginSum(products);
  }
}

=== FILE: login.dfy ===
/** The login form (src/components/auth/LoginForm.tsx): the credential
    schema, and the submit handler as a state transition over the form's
    loading flag and error text, the token store and whether the success
    callback ran. The service method the form calls (`api.auth.login`) is not
    defined in the API layer: as written, the call throws a TypeError on every
    valid attempt (`SubmitAsWritten`). The model leaves the call's outcome an
    input, which is what `Submit` takes. */
module Login {
  import opened Wrappers
  import opened ApiService

  /** The credentials typed into the form. */
  datatype AuthValues = AuthValues(username: string, password: string)

  /** `min(3)`: at least three characters. The message says "more than 3",
      but exactly three passes. */
  predicate ValidUsername(u: string)
  {
    |u| >= 3
  }

  /** `min(6)`: at least six characters, with the same boundary. */
  predicate ValidPassword(p: string)
  {
    |p| >= 6
  }

  predicate ValidAuth(v: AuthValues)
  {
    ValidUsername(v.username) && ValidPassword(v.password)
  }

  /** What the login call answered. */
  datatype LoginResponse = LoginResponse(success: bool, token: Option<string>, message: Option<string>)

  /** How the awaited login call ended. */
  datatype LoginOutcome =
    | Responded(response: LoginResponse)
    | ThrewError(message: string)
    | ThrewOther

  /** The form's state and the parts of the world the handler writes to. */
  datatype LoginState = LoginState(
    isLoading: bool,
    error: Option<string>,
    store: TokenStore,
    loggedIn: bool)

  const DefaultLoginError: string := "حدث خطأ أثناء تسجيل الدخول"

  /** The response lets the user in: the success flag and a non-empty token. */
  predicate Accepted(r: LoginResponse)
  {
    r.success && Truthy(r.token)
  }

  /** The state at the start of an attempt: loading, with no error shown. */
  function BeginAttempt(s: LoginState): (t: LoginState)
    ensures t.isLoading && t.error.None?
    ensures t.store == s.store && t.loggedIn == s.loggedIn
  {
    s.(isLoading := true, error := None)
  }

  /** The state after the awaited call settled, the `finally` included. */
  function FinishAttempt(s: LoginState, outcome: LoginOutcome): LoginState
  {
    var settled :=
      match outcome
      case Responded(r) =>
        if Accepted(r) then s.(store := SetToken(s.store, r.token.value), loggedIn := true)
        else s.(error := Some(OrElse(r.message, DefaultLoginError)))
      case ThrewError(m) => s.(error := Some(m))
      case ThrewOther => s.(error := Some(DefaultLoginError));
    settled.(isLoading := false)
  }

  /** Submitting the form: the schema resolver lets only valid credentials
      reach `onSubmit`; a valid attempt begins, awaits the login call, and
      settles. */
  function Submit(s: LoginState, values: AuthValues, outcome: LoginOutcome): (t: LoginState)
    ensures !ValidAuth(values) ==> t == s
    ensures ValidAuth(values) ==> !t.isLoading
    ensures ValidAuth(values) && outcome.Responded? && Accepted(outcome.response) ==>
      t.loggedIn && t.store == outcome.response.token && t.error.None?
    ensures ValidAuth(values) && !(outcome.Responded? && Accepted(outcome.response)) ==>
      t.store == s.store && t.loggedIn == s.loggedIn && t.error.Some?
  {
    if ValidAuth(values) then FinishAttempt(BeginAttempt(s), outcome) else s
  }

  /** Submitting as the code is written: `api.auth` is the token store, which
      has no `login`, so awaiting `api.auth.login(...)` throws a TypeError whose
      host-chosen text is `typeErrorMessage`. No valid attempt ever logs in: it
      shows that text and leaves the store and the login flag alone. */
  function SubmitAsWritten(s: LoginState, values: AuthValues, typeErrorMessage: string): (t: LoginState)
    ensures !ValidAuth(values) ==> t == s
    ensures ValidAuth(values) ==>
      !t.isLoading && t.error == Some(typeErrorMessage) && t.store == s.store && t.loggedIn == s.loggedIn
  {
    Submit(s, values, ThrewError(typeErrorMessage))
  }

  /** A logged-out user is logged in by an accepted response, and then is
      authenticated in the API layer's sense. */
  lemma AcceptedLogsIn(s: LoginState, values: AuthValues, r: LoginResponse)
    requires ValidAuth(values) && Accepted(r)
    ensures Submit(s, values, Responded(r)).loggedIn
    ensures IsAuthenticated(Submit(s, values, Responded(r)).store)
    ensures Submit(s, values, Responded(r)).error == None
  {
  }

  /** Every other answer leaves the store and the callback flag alone and shows
      an error: the server's message when it has one, the default otherwise. */
  lemma RejectedShowsError(s: LoginState, values: AuthValues, r: LoginResponse)
    requires ValidAuth(values) && !Accepted(r)
    ensures var t := Submit(s, values, Responded(r));
      t.store == s.store && t.loggedIn == s.loggedIn &&
      t.error == Some(if Truthy(r.message) then r.message.value else DefaultLoginError)
  {
  }

  /** A success flag with an empty token is still a failure. */
  lemma EmptyTokenIsFailure(s: LoginState, values: AuthValues)
    requires ValidAuth(values) && !s.loggedIn
    ensures !Submit(s, values, Responded(LoginResponse(true, Some(""), None))).loggedIn
    ensures Submit(s, values, Responded(LoginResponse(true, Some(""), None))).error == Some(DefaultLoginError)
  {
  }

  /** A thrown `Error` shows its own message, even an empty one; any other
      thrown value shows the default text. */
  lemma ThrownErrorMessage(s: LoginState, values: AuthValues, m: string)
    requires ValidAuth(values)
    ensures Submit(s, values, ThrewError(m)).error == Some(m)
    ensures Submit(s, values, ThrewOther).error == Some(DefaultLoginError)
    ensures Submit(s, values, ThrewError(m)).store == s.store
  {
  }

  /** Schema boundaries: three characters of username and six of password
      pass, one fewer fails. */
  lemma AuthBoundaries()
    ensures ValidAuth(AuthValues("abc", "secret"))
    ensures !ValidAuth(AuthValues("ab", "secret"))
    ensures !ValidAuth(AuthValues("abc", "secre"))
  {
  }

  /** A previous error never survives an attempt that is let in. */
  lemma RetryClearsError(s: LoginState, values: AuthValues, r: LoginResponse)
    requires ValidAuth(values) && Accepted(r) && s.error.Some?
    ensures Submit(s, values, Responded(r)).error.None?
  {
  }
}

=== FILE: mock_api.dfy ===
/** The mock product API (src/lib/api.ts): `productsApi` answers from the
    fixed sample list instead of a server. Every operation is a pure function
    of its arguments and the sample list, which no operation changes. Only
    `update` can fail (its explicit not-found throw); the other `catch`
    branches cannot be reached and are not modelled. */
module MockApi {
  import opened Wrappers
  import opened Products

  /** The message of the error `update` throws for an unknown id. */
  const NotFoundMessage: string := "المنتج غير موجود"

  /* ---------------------------------------------------------------------- */
  /* Lookup                                                                  */
  /* ---------------------------------------------------------------------- */

  /** The index of the first product with the given id, as `Array.find`
      searches. */
  function FindIndex(products: seq<Product>, id: string): (r: Option<nat>)
    ensures r.Some? ==> r.value < |products| && products[r.value].id == id
    ensures r.Some? ==> forall j :: 0 <= j < r.value ==> products[j].id != id
    ensures r.None? <==> forall j :: 0 <= j < |products| ==> products[j].id != id
    decreases |products|
  {
    if products == [] then None
    else if products[0].id == id then Some(0)
    else match FindIndex(products[1..], id)
      case Some(k) => Some(k + 1)
      case None => None
  }

  /** `sampleProducts.find(p => p.id === id)`: the first product with the id. */
  function Find(products: seq<Product>, id: string): (r: Option<Product>)
    ensures r.Some? ==> r.value in products && r.value.id == id
    ensures r.Some? ==> exists k :: (0 <= k < |products| && products[k] == r.value &&
                                     forall j :: 0 <= j < k ==> products[j].id != id)
    ensures r.None? <==> forall j :: 0 <= j < |products| ==> products[j].id != id
  {
    match FindIndex(products, id)
    case Some(k) => Some(products[k])
    case None => None
  }

  /** In a list with distinct ids, looking up a product's id finds that product. */
  lemma FindDistinct(products: seq<Product>, k: nat)
    requires k < |products|
    requires forall i, j :: 0 <= i < j < |products| ==> products[i].id != products[j].id
    ensures Find(products, products[k].id) == Some(products[k])
  {
    var r := FindIndex(products, products[k].id);
    assert r.Some?;
  }

  /* ---------------------------------------------------------------------- */
  /* Partial records                                                         */
  /* ---------------------------------------------------------------------- */

  /** `Partial<Product>`: each field may be absent. A present `image` sets it. */
  datatype ProductPatch = ProductPatch(
    id: Option<string>,
    name: Option<string>,
    barcode: Option<string>,
    price: Option<real>,
    cost: Option<real>,
    quantity: Option<real>,
    category: Option<string>,
    image: Option<string>,
    minStock: Option<real>)

  /** The partial with no field at all. */
  const EmptyPatch: ProductPatch := ProductPatch(None, None, None, None, None, None, None, None, None)

  function Pick<T>(field: Option<T>, current: T): T
  {
    match field
    case Some(v) => v
    case None => current
  }

  /** `{ ...existing, ...patch }`: every field the partial carries overrides
      the existing one, every other field keeps its value. A present `id`
      overrides the id too. */
  function ApplyPatch(p: Product, patch: ProductPatch): (r: Product)
    ensures patch.id.Some? ==> r.id == patch.id.value
    ensures patch.id.None? ==> r.id == p.id
    ensures patch.name.Some? ==> r.name == patch.name.value
    ensures patch.barcode.Some? ==> r.barcode == patch.barcode.value
    ensures patch.price.Some? ==> r.price == patch.price.value
    ensures patch.cost.Some? ==> r.cost == patch.cost.value
    ensures patch.quantity.Some? ==> r.quantity == patch.quantity.value
    ensures patch.category.Some? ==> r.category == patch.category.value
    ensures patch.image.Some? ==> r.image == patch.image
    ensures patch.minStock.Some? ==> r.minStock == patch.minStock.value
    ensures patch.name.None? ==> r.name == p.name
    ensures patch.barcode.None? ==> r.barcode == p.barcode
    ensures patch.price.None? ==> r.price == p.price
    ensures patch.cost.None? ==> r.cost == p.cost
    ensures patch.quantity.None? ==> r.quantity == p.quantity
    ensures patch.category.None? ==> r.category == p.category
    ensures patch.image.None? ==> r.image == p.image
    ensures patch.minStock.None? ==> r.minStock == p.minStock
  {
    Product(
      Pick(patch.id, p.id),
      Pick(patch.name, p.name),
      Pick(patch.barcode, p.barcode),
      Pick(patch.price, p.price),
      Pick(patch.cost, p.cost),
      Pick(patch.quantity, p.quantity),
      Pick(patch.category, p.category),
      match patch.image case Some(img) => Some(img) case None => p.image,
      Pick(patch.minStock, p.minStock))
  }

  /** The partial that carries the fields of `b`, falling back to `a`'s:
      what `{ ...a, ...b }` is as a partial. */
  function Merge(a: ProductPatch, b: ProductPatch): ProductPatch
  {
    ProductPatch(
      if b.id.Some? then b.id else a.id,
      if b.name.Some? then b.name else a.name,
      if b.barcode.Some? then b.barcode else a.barcode,
      if b.price.Some? then b.price else a.price,
      if b.cost.Some? then b.cost else a.cost,
      if b.quantity.Some? then b.quantity else a.quantity,
      if b.category.Some? then b.category else a.category,
      if b.image.Some? then b.image else a.image,
      if b.minStock.Some? then b.minStock else a.minStock)
  }

  /** The partial carrying every field of `q`. */
  function FullPatch(q: Product): ProductPatch
  {
    ProductPatch(Some(q.id), Some(q.name), Some(q.barcode), Some(q.price), Some(q.cost),
      Some(q.quantity), Some(q.category), q.image, Some(q.minStock))
  }

  /** The empty partial changes nothing. */
  lemma EmptyPatchIdentity(p: Product)
    ensures ApplyPatch(p, EmptyPatch) == p
  {
  }

  /** Applying two partials one after the other is applying their merge. */
  lemma PatchCompose(p: Product, a: ProductPatch, b: ProductPatch)
    ensures ApplyPatch(ApplyPatch(p, a), b) == ApplyPatch(p, Merge(a, b))
  {
  }

  /** Applying the same partial twice is applying it once. */
  lemma PatchIdempotent(p: Product, a: ProductPatch)
    ensures ApplyPatch(ApplyPatch(p, a), a) == ApplyPatch(p, a)
  {
    PatchCompose(p, a, a);
    assert Merge(a, a) == a;
  }

  /** A partial carrying every field of `q` turns `p` into `q`. A partial
      cannot clear an image, so this needs `q` to have one or `p` to lack one. */
  lemma FullPatchReplaces(p: Product, q: Product)
    requires q.image.Some? || p.image.None?
    ensures ApplyPatch(p, FullPatch(q)) == q
  {
  }

  /* ---------------------------------------------------------------------- */
  /* productsApi                                                             */
  /* ---------------------------------------------------------------------- */

  /** `getAll`: the sample list, successfully. */
  function GetAll(): (r: ApiResponse<seq<Product>>)
    ensures r.success && r.message.None? && r.data == SampleProducts
    ensures |r.data| == 6
    ensures forall i :: 0 <= i < |r.data| ==> r.data[i].price > r.data[i].cost > 0.0
  {
    SampleProductsWellFormed();
    ApiResponse(true, SampleProducts, None)
  }

  /** `getById`: the first sample product with that id, or `null` (`None`);
      either way the call succeeds. */
  function GetById(id: string): (r: ApiResponse<Option<Product>>)
    ensures r.success && r.message.None?
    ensures r.data.Some? ==> r.data.value in SampleProducts && r.data.value.id == id
    ensures r.data.None? <==> forall p :: p in SampleProducts ==> p.id != id
  {
    ApiResponse(true, Find(SampleProducts, id), None)
  }

  /** `add`: the given fields unchanged, with the identifier the caller's
      clock produced (`Date.now().toString()` is left as a parameter). */
  function Add(draft: ProductDraft, newId: string): (r: ApiResponse<Product>)
    ensures r.success && r.message.None?
    ensures r.data.id == newId && DraftOf(r.data) == draft
  {
    ApiResponse(true, WithId(draft, newId), None)
  }

  /** `update`: the existing sample product with the partial's fields laid
      over it; an unknown id gives a failure carrying the not-found message and
      an empty placeholder (`{}`, here `None`). */
  function Update(id: string, patch: ProductPatch): (r: ApiResponse<Option<Product>>)
    ensures r.success <==> exists p :: p in SampleProducts && p.id == id
    ensures !r.success ==> r.data.None? && r.message == Some(NotFoundMessage)
    ensures r.success ==> r.message.None? && r.data == Some(ApplyPatch(GetById(id).data.value, patch))
  {
    match Find(SampleProducts, id)
    case None => ApiResponse(false, None, Some(NotFoundMessage))
    case Some(existing) => ApiResponse(true, Some(ApplyPatch(existing, patch)), None)
  }

  /** `delete`: always succeeds with `true`; the sample list keeps the product. */
  function Delete(id: string): (r: ApiResponse<bool>)
    ensures r.success && r.data && r.message.None?
  {
    ApiResponse(true, true, None)
  }

  /** An update with the empty partial returns the product `getById` finds. */
  lemma UpdateEmptyPatch(id: string)
    ensures Update(id, EmptyPatch).success ==> Update(id, EmptyPatch).data == GetById(id).data
  {
  }

  /** Lookup of a sample id finds that very product; each of the six is found. */
  lemma GetByIdSample(k: nat)
    requires k < |SampleProducts|
    ensures GetById(SampleProducts[k].id).data == Some(SampleProducts[k])
  {
    SampleProductsWellFormed();
    FindDistinct(SampleProducts, k);
  }

  /** An id outside the sample ("7") is looked up as `null` and cannot be updated. */
  lemma UnknownIdExample(patch: ProductPatch)
    ensures GetById("7").success && GetById("7").data == None
    ensures Update("7", patch) == ApiResponse(false, None, Some(NotFoundMessage))
  {
    assert forall p :: p in SampleProducts ==> p.id != "7";
  }
}

=== FILE: product_form.dfy ===
/** The product form's validation schema and submission
    (src/components/inventory/ProductForm.tsx). Each schema rule is a
    predicate; a submission reaches the caller only when every rule holds,
    and then unchanged. Zod's coercion of text input to numbers happens before
    these rules and is not modelled: the values here are already numbers. */
module ProductForm {
  import opened Wrappers
  import opened Products

  /** The values the form edits: the product without id and image. */
  datatype ProductFormValues = ProductFormValues(
    name: string,
    barcode: string,
    price: real,
    cost: real,
    quantity: real,
    category: string,
    minStock: real)

  /** `z.number().int()`: the number has no fractional part. */
  predicate IsWhole(x: real)
  {
    x.Floor as real == x
  }

  /** The name has at least two characters. */
  predicate ValidName(name: string)
  {
    |name| >= 2
  }

  /** A required text field: at least one character (barcode, category). */
  predicate Required(s: string)
  {
    |s| >= 1
  }

  /** `positive()`: strictly greater than zero (price, cost). */
  predicate Positive(x: real)
  {
    x > 0.0
  }

  /** `int().nonnegative()`: a whole number, zero or more (quantity, minStock). */
  predicate WholeNonNegative(x: real)
  {
    IsWhole(x) && x >= 0.0
  }

  /** The whole schema: every field rule holds. */
  predicate ValidProductForm(v: ProductFormValues)
  {
    && ValidName(v.name)
    && Required(v.barcode)
    && Positive(v.price)
    && Positive(v.cost)
    && WholeNonNegative(v.quantity)
    && Required(v.category)
    && WholeNonNegative(v.minStock)
  }

  /** The empty form shown when adding a product. */
  const BlankForm: ProductFormValues := ProductFormValues("", "", 0.0, 0.0, 0.0, "", 0.0)

  /** The form fields of an existing product. */
  function FormValuesOf(p: Product): ProductFormValues
  {
    ProductFormValues(p.name, p.barcode, p.price, p.cost, p.quantity, p.category, p.minStock)
  }

  /** `defaultValues: initialData || blank`: editing starts from the product's
      own values, adding from the blank form. */
  function DefaultValues(initial: Option<Product>): (v: ProductFormValues)
    ensures initial.None? ==> v == BlankForm
    ensures initial.Some? ==> v == FormValuesOf(initial.value)
  {
    match initial
    case Some(p) => FormValuesOf(p)
    case None => BlankForm
  }

  /** `handleSubmit` behind the schema resolver: valid values are forwarded to
      the caller unchanged, invalid ones never reach it. */
  function Submit(v: ProductFormValues): (forwarded: Option<ProductFormValues>)
    ensures forwarded.Some? <==> ValidProductForm(v)
    ensures forwarded.Some? ==> forwarded.value == v
  {
    if ValidProductForm(v) then Some(v) else None
  }

  /** The blank form is rejected: name, barcode, price, cost and category all
      fail, while the zero quantity and zero threshold pass. */
  lemma BlankFormRejected()
    ensures Submit(BlankForm) == None
    ensures !ValidName(BlankForm.name) && !Required(BlankForm.barcode) && !Required(BlankForm.category)
    ensures !Positive(BlankForm.price) && !Positive(BlankForm.cost)
    ensures WholeNonNegative(BlankForm.quantity) && WholeNonNegative(BlankForm.minStock)
  {
  }

  /** Boundaries: a one-character name fails and a two-character one passes;
      a zero price fails; a fractional quantity fails. */
  lemma SchemaBoundaries(v: ProductFormValues)
    requires ValidProductForm(v)
    ensures !ValidProductForm(v.(name := v.name[..1]))
    ensures ValidProductForm(v.(name := v.name[..2]))
    ensures !ValidProductForm(v.(price := 0.0))
    ensures !ValidProductForm(v.(quantity := v.quantity + 0.5))
  {
    var q := v.quantity + 0.5;
    assert q.Floor == v.quantity.Floor;
  }

  /** A valid form describes a product whose card margin is defined and lies
      below 100%: the card's unguarded division cannot see a zero price. */
  lemma ValidFormMarginDefined(v: ProductFormValues, id: string)
    requires ValidProductForm(v)
    ensures var p := Product(id, v.name, v.barcode, v.price, v.cost, v.quantity, v.category, None, v.minStock);
      p.price != 0.0 && ProfitMargin(p) < 100.0
  {
    var p := Product(id, v.name, v.barcode, v.price, v.cost, v.quantity, v.category, None, v.minStock);
    MarginBelowHundred(p);
  }

  /** Opening any sample product for editing and saving it unchanged passes
      the schema. */
  lemma SampleProductsPassSchema()
    ensures forall p :: p in SampleProducts ==> Submit(DefaultValues(Some(p))) == Some(FormValuesOf(p))
  {
    forall p | p in SampleProducts
      ensures ValidProductForm(FormValuesOf(p))
    {
      assert p.quantity.Floor as real == p.quantity;
      assert p.minStock.Floor as real == p.minStock;
    }
  }
}

=== FILE: products.dfy ===
/** The inventory record and the per-product figures the product card shows
    (src/components/inventory/ProductCard.tsx): the low-stock flag, the profit
    and the profit margin. JavaScript numbers are modelled as `real`. */
module Products {
  import opened Wrappers

  /** One product of the inventory. `image` is the optional picture reference. */
  datatype Product = Product(
    id: string,
    name: string,
    barcode: string,
    price: real,
    cost: real,
    quantity: real,
    category: string,
    image: Option<string>,
    minStock: real)

  /** A product without its identifier, the argument of `productsApi.add`
      (`Omit<Product, 'id'>`). */
  datatype ProductDraft = ProductDraft(
    name: string,
    barcode: string,
    price: real,
    cost: real,
    quantity: real,
    category: string,
    image: Option<string>,
    minStock: real)

  /** Gives a draft an identifier. */
  function WithId(d: ProductDraft, id: string): (p: Product)
    ensures p.id == id
    ensures DraftOf(p) == d
  {
    Product(id, d.name, d.barcode, d.price, d.cost, d.quantity, d.category, d.image, d.minStock)
  }

  /** Forgets a product's identifier. */
  function DraftOf(p: Product): ProductDraft
  {
    ProductDraft(p.name, p.barcode, p.price, p.cost, p.quantity, p.category, p.image, p.minStock)
  }

  /** A product is split losslessly into its identifier and its draft. */
  lemma DraftRoundTrip(p: Product)
    ensures WithId(DraftOf(p), p.id) == p
  {
  }

  /** Low stock: the quantity on hand is at or below the minimum threshold.
      The card's badge, the dashboard's filter toggle and its counter all use
      this one predicate. */
  predicate IsLowStock(p: Product)
  {
    p.quantity <= p.minStock
  }

  /** Profit per unit sold. */
  function Profit(p: Product): real
  {
    p.price - p.cost
  }

  /** Profit as a percentage of the sale price. The card divides without a
      guard, so the margin is only defined for a non-zero price. */
  function ProfitMargin(p: Product): (m: real)
    requires p.price != 0.0
    ensures m * p.price == Profit(p) * 100.0
  {
    Profit(p) / p.price * 100.0
  }

  /** For a positive price the sign of the margin is the sign of the profit:
      zero exactly when price and cost are equal, negative exactly when the
      product is sold below cost. */
  lemma MarginSign(p: Product)
    requires p.price > 0.0
    ensures ProfitMargin(p) == 0.0 <==> p.price == p.cost
    ensures ProfitMargin(p) < 0.0 <==> p.cost > p.price
    ensures ProfitMargin(p) > 0.0 <==> p.price > p.cost
  {
    var m := ProfitMargin(p);
    assert m * p.price == (p.price - p.cost) * 100.0;
  }

  /** With a positive price and a positive cost the margin stays below 100%. */
  lemma MarginBelowHundred(p: Product)
    requires p.price > 0.0 && p.cost > 0.0
    ensures ProfitMargin(p) < 100.0
  {
    var m := ProfitMargin(p);
    assert m * p.price == (p.price - p.cost) * 100.0;
    assert m * p.price < 100.0 * p.price;
  }

  /** The six sample products that both the dashboard
      (src/components/inventory/InventoryDashboard.tsx) and the mock API
      (src/lib/api.ts) start from; the two copies are identical. */
  const SampleProducts: seq<Product> := [
    Product("1", "حليب كامل الدسم", "6210000123451", 5.99, 4.20, 45.0, "ألبان", None, 10.0),
    Product("2", "أرز بسمتي", "6210000123452", 29.99, 22.50, 30.0, "أساسيات", None, 5.0),
    Product("3", "معجون أسنان", "6210000123453", 12.50, 8.75, 3.0, "العناية الشخصية", None, 5.0),
    Product("4", "زيت زيتون", "6210000123454", 35.75, 28.60, 15.0, "زيوت وسمن", None, 8.0),
    Product("5", "مناديل ورقية", "6210000123455", 8.99, 6.50, 22.0, "منزلية", None, 10.0),
    Product("6", "تفاح أحمر", "6210000123456", 10.99, 7.80, 2.0, "فواكه", None, 5.0)
  ]

  /** Every sample product has a positive price and cost, a positive margin,
      and distinct identifiers from the others. */
  lemma SampleProductsWellFormed()
    ensures forall p :: p in SampleProducts ==> p.price > 0.0 && p.cost > 0.0 && p.price > p.cost
    ensures forall i, j :: 0 <= i < j < |SampleProducts| ==> SampleProducts[i].id != SampleProducts[j].id
  {
  }
}

=== FILE: seqs.dfy ===
/** Generic sequence and string helpers shared by the cart, the inventory view
    and the API layer. They give the JavaScript built-ins the components use a
    meaning in Dafny terms:
    - `Filter` is `Array.prototype.filter`: a stable, order-preserving filter;
    - `Sum` is `Array.prototype.reduce((acc, x) => acc + f(x), 0)` over reals;
    - `Includes` is `String.prototype.includes`: substring search. */
module Seqs {

  /* ---------------------------------------------------------------------- */
  /* Subsequences                                                            */
  /* ---------------------------------------------------------------------- */

  /** `a` is obtained from `b` by deleting elements, the rest kept in order.
      Defined by greedy matching from the front. */
  predicate IsSubsequence<T(==)>(a: seq<T>, b: seq<T>)
    decreases |b|
  {
    if a == [] then true
    else if b == [] then false
    else if a[0] == b[0] then IsSubsequence(a[1..], b[1..])
    else IsSubsequence(a, b[1..])
  }

  /** Dropping the first element of `a` keeps it a subsequence. */
  lemma {:induction false} SubsequenceDropFirst<T>(a: seq<T>, b: seq<T>)
    requires a != [] && IsSubsequence(a, b)
    ensures IsSubsequence(a[1..], b)
    decreases |b|, 0
  {
    if b != [] {
      if a[0] == b[0] {
        SubsequenceExtend(a[1..], b[1..], b[0]);
        assert [b[0]] + b[1..] == b;
      } else {
        SubsequenceDropFirst(a, b[1..]);
        SubsequenceExtend(a[1..], b[1..], b[0]);
        assert [b[0]] + b[1..] == b;
      }
    }
  }

  /** Putting an element in front of `b` keeps `a` a subsequence of it. */
  lemma {:induction false} SubsequenceExtend<T>(a: seq<T>, b: seq<T>, x: T)
    requires IsSubsequence(a, b)
    ensures IsSubsequence(a, [x] + b)
    decreases |b|, 1
  {
    assert ([x] + b)[1..] == b;
    if a != [] && a[0] == x {
      SubsequenceDropFirst(a, b);
    }
  }

  /** A common first element can be matched on both sides. */
  lemma SubsequenceCons<T>(a: seq<T>, b: seq<T>, x: T)
    requires IsSubsequence(a, b)
    ensures IsSubsequence([x] + a, [x] + b)
  {
    assert ([x] + a)[1..] == a;
    assert ([x] + b)[1..] == b;
  }

  /* ---------------------------------------------------------------------- */
  /* Filter                                                                  */
  /* ---------------------------------------------------------------------- */

  /** The elements of `s` that satisfy `p`, in their original order. */
  function Filter<T>(s: seq<T>, p: T -> bool): (r: seq<T>)
    ensures |r| <= |s|
    ensures forall i :: 0 <= i < |r| ==> r[i] in s && p(r[i])
    ensures forall i :: 0 <= i < |s| && p(s[i]) ==> s[i] in r
  {
    if s == [] then []
    else if p(s[0]) then [s[0]] + Filter(s[1..], p)
    else Filter(s[1..], p)
  }

  /** The filter result is a subsequence of its input: nothing is reordered. */
  lemma {:induction false} FilterIsSubsequence<T>(s: seq<T>, p: T -> bool)
    ensures IsSubsequence(Filter(s, p), s)
    decreases |s|
  {
    if s != [] {
      FilterIsSubsequence(s[1..], p);
      if p(s[0]) {
        SubsequenceCons(Filter(s[1..], p), s[1..], s[0]);
      } else {
        SubsequenceExtend(Filter(s[1..], p), s[1..], s[0]);
      }
      assert [s[0]] + s[1..] == s;
    }
  }

  /** When every element passes, the filter is the identity. */
  lemma {:induction false} FilterKeepsAll<T>(s: seq<T>, p: T -> bool)
    requires forall x :: x in s ==> p(x)
    ensures Filter(s, p) == s
    decreases |s|
  {
    if s != [] {
      FilterKeepsAll(s[1..], p);
      assert [s[0]] + s[1..] == s;
    }
  }

  /** When no element passes, the filter is empty. */
  lemma {:induction false} FilterKeepsNone<T>(s: seq<T>, p: T -> bool)
    requires forall i :: 0 <= i < |s| ==> !p(s[i])
    ensures Filter(s, p) == []
    decreases |s|
  {
    if s != [] {
      FilterKeepsNone(s[1..], p);
    }
  }

  /** An element the predicate rejects makes the filter strictly shorter. */
  lemma {:induction false} FilterShrinks<T>(s: seq<T>, p: T -> bool, k: nat)
    requires k < |s| && !p(s[k])
    ensures |Filter(s, p)| < |s|
    decreases |s|
  {
    if k > 0 {
      FilterShrinks(s[1..], p, k - 1);
    }
  }

  /** The filter keeps every copy of an element that passes and no copy of
      one that fails: it counts as a multiset, not only as a set. */
  lemma {:induction false} FilterMultiset<T>(s: seq<T>, p: T -> bool)
    ensures forall x {:trigger multiset(Filter(s, p))[x]} :: multiset(Filter(s, p))[x] == if p(x) then multiset(s)[x] else 0
    decreases |s|
  {
    if s != [] {
      FilterMultiset(s[1..], p);
      assert s == [s[0]] + s[1..];
      if p(s[0]) {
        assert multiset(Filter(s, p)) == multiset([s[0]]) + multiset(Filter(s[1..], p));
      }
    }
  }

  /** Filtering twice by the same predicate is the same as filtering once. */
  lemma FilterIdempotent<T>(s: seq<T>, p: T -> bool)
    ensures Filter(Filter(s, p), p) == Filter(s, p)
  {
    FilterKeepsAll(Filter(s, p), p);
  }

  /** Two predicates that agree on `s` filter it the same way. */
  lemma {:induction false} FilterCongruent<T>(s: seq<T>, p: T -> bool, q: T -> bool)
    requires forall x :: x in s ==> p(x) == q(x)
    ensures Filter(s, p) == Filter(s, q)
    decreases |s|
  {
    if s != [] {
      FilterCongruent(s[1..], p, q);
    }
  }

  /** Filtering by `p` and then by `q` is filtering by their conjunction `pq`. */
  lemma {:induction false} FilterCompose<T>(s: seq<T>, p: T -> bool, q: T -> bool, pq: T -> bool)
    requires forall x :: x in s ==> pq(x) == (p(x) && q(x))
    ensures Filter(Filter(s, p), q) == Filter(s, pq)
    decreases |s|
  {
    if s != [] {
      FilterCompose(s[1..], p, q, pq);
      if p(s[0]) {
        assert ([s[0]] + Filter(s[1..], p))[1..] == Filter(s[1..], p);
      }
    }
  }

  /** Two filters can be applied in either order. */
  lemma FilterCommute<T>(s: seq<T>, p: T -> bool, q: T -> bool)
    ensures Filter(Filter(s, p), q) == Filter(Filter(s, q), p)
  {
    var pq := x => p(x) && q(x);
    FilterCompose(s, p, q, pq);
    FilterCompose(s, q, p, pq);
  }

  /** A stronger predicate selects a subsequence of what a weaker one selects. */
  lemma {:induction false} FilterMonotone<T>(s: seq<T>, p: T -> bool, q: T -> bool)
    requires forall x :: x in s && p(x) ==> q(x)
    ensures IsSubsequence(Filter(s, p), Filter(s, q))
    decreases |s|
  {
    if s == [] {
    } else {
      FilterMonotone(s[1..], p, q);
      if p(s[0]) {
        SubsequenceCons(Filter(s[1..], p), Filter(s[1..], q), s[0]);
      } else if q(s[0]) {
        SubsequenceExtend(Filter(s[1..], p), Filter(s[1..], q), s[0]);
      }
    }
  }

  /* ---------------------------------------------------------------------- */
  /* Sum                                                                     */
  /* ---------------------------------------------------------------------- */

  /** The sum of `f` over `s`. JavaScript's `reduce` folds from the left
      starting at 0; real addition is associative, so folding from the right
      is the same. */
  function Sum<T>(s: seq<T>, f: T -> real): real
  {
    if s == [] then 0.0 else f(s[0]) + Sum(s[1..], f)
  }

  /** A sum of non-negative terms is non-negative. */
  lemma {:induction false} SumNonNegative<T>(s: seq<T>, f: T -> real)
    requires forall x :: x in s ==> f(x) >= 0.0
    ensures Sum(s, f) >= 0.0
    decreases |s|
  {
    if s != [] {
      SumNonNegative(s[1..], f);
    }
  }

  /** Splitting a sequence by a predicate `p` and its negation `notP` splits
      its sum. */
  lemma {:induction false} SumSplit<T>(s: seq<T>, f: T -> real, p: T -> bool, notP: T -> bool)
    requires forall x :: x in s ==> notP(x) == !p(x)
    ensures Sum(s, f) == Sum(Filter(s, p), f) + Sum(Filter(s, notP), f)
    decreases |s|
  {
    if s != [] {
      SumSplit(s[1..], f, p, notP);
      if p(s[0]) {
        assert ([s[0]] + Filter(s[1..], p))[1..] == Filter(s[1..], p);
      } else {
        assert ([s[0]] + Filter(s[1..], notP))[1..] == Filter(s[1..], notP);
      }
    }
  }

  /* ---------------------------------------------------------------------- */
  /* Substring search                                                        */
  /* ---------------------------------------------------------------------- */

  /** `needle` occurs in `hay` starting at position `i`. */
  ghost predicate OccursAt(hay: string, needle: string, i: int)
  {
    0 <= i && i + |needle| <= |hay| && hay[i..i + |needle|] == needle
  }

  /** Substring search, as `hay.includes(needle)`: true iff `needle` occurs
      somewhere in `hay`. The empty string occurs in every string. */
  function Includes(hay: string, needle: string): (b: bool)
    ensures b <==> exists i :: OccursAt(hay, needle, i)
    decreases |hay|
  {
    if |needle| <= |hay| && hay[..|needle|] == needle then
      assert OccursAt(hay, needle, 0);
      true
    else if |hay| <= |needle| then
      assert forall i :: !OccursAt(hay, needle, i);
      false
    else
      IncludesStep(hay, needle);
      Includes(hay[1..], needle)
  }

  /** When `needle` is not a prefix of `hay`, its occurrences in `hay` are
      those in `hay[1..]`, shifted by one. */
  lemma IncludesStep(hay: string, needle: string)
    requires |needle| < |hay| && hay[..|needle|] != needle
    ensures (exists i :: OccursAt(hay, needle, i)) <==> (exists i :: OccursAt(hay[1..], needle, i))
  {
    if i :| OccursAt(hay, needle, i) {
      assert i != 0;
      assert hay[1..][i - 1..i - 1 + |needle|] == hay[i..i + |needle|];
      assert OccursAt(hay[1..], needle, i - 1);
    }
    if i :| OccursAt(hay[1..], needle, i) {
      assert hay[1..][i..i + |needle|] == hay[i + 1..i + 1 + |needle|];
      assert OccursAt(hay, needle, i + 1);
    }
  }

  /** Every string includes the empty string. */
  lemma IncludesEmpty(hay: string)
    ensures Includes(hay, "")
  {
    assert OccursAt(hay, "", 0);
  }

  /** A string includes itself, so an exact match is always found. */
  lemma IncludesSelf(s: string)
    ensures Includes(s, s)
  {
    assert OccursAt(s, s, 0);
  }
}

=== FILE: wrappers.dfy ===
/** Optional values and the response envelope shared by the API layer and the
    components: `null`/`undefined`, JavaScript truthiness of strings, the
    `||` fallback, and `{ success, data, message? }`. */
module Wrappers {

  /** An optional value: `null`/`undefined` in the TypeScript code become `None`. */
  datatype Option<+T> = None | Some(value: T)

  /** JavaScript truthiness of an optional string: present and non-empty. */
  predicate Truthy(s: Option<string>)
  {
    s.Some? && s.value != ""
  }

  /** `s || fallback` for an optional string. */
  function OrElse(s: Option<string>, fallback: string): (r: string)
    ensures Truthy(s) ==> r == s.value
    ensures !Truthy(s) ==> r == fallback
  {
    if Truthy(s) then s.value else fallback
  }

  /** The uniform response envelope of the API layers
      (`{ success, data, message? }`). */
  datatype ApiResponse<+T> = ApiResponse(success: bool, data: T, message: Option<string>)
}
